=== FILE: README.md ===
# Conway's Game of Life on a 50 x 25 torus — a Dafny model

This project models the simulation core of the windowed Game of Life in
`src/main.rs`:

- the `Grid` type, a `HEIGHT x WIDTH` boolean matrix stored row by row;
- the grid operations `new`, `clear` and `randomize`;
- `count_neighbors`, the toroidal Moore-neighborhood count;
- `next_generation`, the B3/S23 rule;
- the single-cell writes made by the two mouse handlers;
- the main loop's pause / frame-counter controller.

The grid is an immutable `seq<seq<bool>>` in a `Grid` datatype. Each
operation is either a pure function or a method that mirrors the source's
loops, and the methods are proved equal to the functions.

Modules, in dependency order:

- `Grids` (`grids.dfy`): the dimensions, the grid, `new`, `clear`, and the
  guarded cell write.
- `Neighborhood` (`neighborhood.dfy`): Rust's truncating `%`, the
  wrap-around of one coordinate, and the neighbor count as a sum of the
  eight wrapped cells.
- `NeighborCount` (`count_neighbors.dfy`): the `count_neighbors` double
  loop, including its `continue` on the centre.
- `Life` (`life.dfy`): the rule, the next generation as a function, and the
  `next_generation` loop proved equal to it.
- `Patterns` (`patterns.dfy`): the rule checked on whole shapes. The empty
  grid, the 2x2 block and the blinker behave as Life's folklore says.
- `Random` (`random.dfy`): the 64-bit LCG with its `& 0x7fffffff` mask, and
  `randomize`.
- `Mouse` (`mouse.dfy`): converting the cursor position to a cell (see
  Findings).
- `Controller` (`controller.dfy`): the per-frame state machine over the grid,
  `paused` and `frame_count`.

## Model

| member | source | states |
|---|---|---|
| Grids.New | src/main.rs:15-19 | the new grid has exactly HEIGHT rows of WIDTH cells, all dead |
| Grids.Clear | src/main.rs:38-44 | clearing keeps the HEIGHT x WIDTH shape and leaves every cell dead |
| Grids.ClearIdempotent | src/main.rs:38-44 | clearing twice is clearing once, and a cleared grid equals a new one |
| Grids.SetCell | src/main.rs:169-171 | an in-bounds write sets exactly cell (x, y) to the value and leaves every other cell alone; an out-of-bounds write changes nothing |
| Grids.SetCellSameValue | src/main.rs:178-180 | writing the value a cell already holds leaves the grid equal to itself |
| Neighborhood.TruncRem | src/main.rs:56-57 | Rust's signed `%`: the dividend is b times the quotient truncated toward zero plus the remainder, which lies in [0, b) for a non-negative dividend and in (-b, 0] for a negative one |
| Neighborhood.Wrap | src/main.rs:56-57 | a wrapped neighbor coordinate is always a valid index, even from x = 0 with dx = -1 |
| Neighborhood.WrapIsResidue | src/main.rs:56-57 | the wrapped coordinate is v + d, except that one step past either edge re-enters at the opposite edge |
| Neighborhood.WrapMoves | src/main.rs:52-57 | a step of -1 or +1 never wraps back onto the starting index when the dimension is at least 2 |
| Neighborhood.Neighbors | src/main.rs:47-66 | the number of live cells among the eight wrapped neighbors is at most 8 |
| Neighborhood.NeighborsExcludeSelf | src/main.rs:52-54 | the cell itself is never counted: changing (x, y) does not change the count around (x, y) |
| Neighborhood.CornerWrapsAround | src/main.rs:56-59 | cell (0, 0) is the diagonal neighbor of (WIDTH-1, HEIGHT-1), the right neighbor of (WIDTH-1, 0) and the lower neighbor of (0, HEIGHT-1) |
| Neighborhood.LoneCornerCounted | src/main.rs:50-63 | with only (0, 0) alive, each of the three other corners counts exactly one live neighbor |
| NeighborCount.CountNeighbors | src/main.rs:47-66 | the loop over dy, dx in -1..=1, skipping the centre, returns exactly the live wrapped-neighbor count, at most 8 |
| Life.Rule | src/main.rs:78-82 | the match yields alive exactly when there are 3 neighbors, or the cell is alive and has 2 |
| Life.Step | src/main.rs:69-87 | the next generation keeps the HEIGHT x WIDTH shape |
| Life.StepCell | src/main.rs:70-86 | a cell of the next generation is alive iff it had 3 live neighbors in the old grid, or was alive with 2 |
| Life.NextGeneration | src/main.rs:69-87 | the loop that fills a fresh matrix from counts taken on the old one produces exactly the next generation, with the shape kept |
| Patterns.RectNeighbors | src/main.rs:47-66 | around any cell, the live neighbors in a rectangle clear of the edges are its column hits times its row hits, less the cell itself |
| Patterns.EmptyStaysEmpty | src/main.rs:78-82 | an all-dead grid is unchanged by a generation: no cell is born without neighbors |
| Patterns.BlockIsStill | src/main.rs:69-87 | a 2x2 block clear of the edges is a still life |
| Patterns.BlinkerOscillates | src/main.rs:69-87 | a line of three becomes the perpendicular line through its middle and then returns: period 2 |
| Random.BitAnd | src/main.rs:32 | the bitwise AND of two naturals is at most each of them |
| Random.AndLowMask | src/main.rs:32 | masking with 2^k - 1 is reduction modulo 2^k, so `& 0x7fffffff` is `mod 2^31` |
| Random.WrapThenLow | src/main.rs:32 | reducing modulo 2^64 before reducing modulo 2^31 changes nothing |
| Random.LcgNext | src/main.rs:32 | one generator step with 64-bit wrap-around and the mask gives a state below 2^31, equal to (s * 1103515245 + 12345) mod 2^31 |
| Random.NoWrapAfterFirstStep | src/main.rs:32 | from a state below 2^31 the product and sum stay below 2^64, so only the step from the seed can wrap |
| Random.LcgState | src/main.rs:29-34 | every generator state after at least one step is below 2^31 |
| Random.RandomGrid | src/main.rs:30-35 | the grid for a seed has the HEIGHT x WIDTH shape, and cell (x, y) is alive iff the (y*WIDTH + x + 1)-th state mod 100 is below 30 |
| Random.FillRow | src/main.rs:31-34 | the inner loop fills row y from the states numbered y*WIDTH + 1 to y*WIDTH + WIDTH and hands on the last state |
| Random.Randomize | src/main.rs:22-36 | the in-place loops overwrite every cell from its own state, so the result is the seed's grid whatever the old grid was: the same seed gives the same grid |
| Mouse.ToUsize | src/main.rs:167-168 | the `as usize` cast truncates a non-negative value and turns every value below 1 into 0 |
| Mouse.CellUnderAsWritten | src/main.rs:166-168 | as written, every cursor above the grid's second row, the whole status bar included, lands in row 0, and every cursor left of the second column lands in column 0 |
| Mouse.StatusBarClickHitsCorner | src/main.rs:165-171 | a click at (10, 10), on the status bar, writes cell (0, 0) of the grid |
| Mouse.CellUnder | src/main.rs:166-169 | the corrected conversion hits a cell iff the cursor is right of the left edge and below the status bar, and then the cursor lies inside that cell's square |
| Controller.Start | src/main.rs:138-141 | the loop starts paused, with counter 0 and an all-dead grid |
| Controller.Tick | src/main.rs:183-190 | paused, the tick changes nothing; running, the counter becomes (count + 1) mod SPEED and the grid advances one generation exactly when the count reaches SPEED |
| Controller.Paint | src/main.rs:165-181 | a held button sets the cell the handlers compute for the cursor (as written, with the saturating cast) to the button's value, every other cell keeps its state, and with no cursor or a cell failing the bounds check nothing changes |
| Controller.PaintIntended | src/main.rs:165-181 | the intended write: only the cell whose square contains the cursor, when the cursor is over the grid, takes the button's value; every other cell keeps its state |
| Controller.PaintAgreesOnGrid | src/main.rs:166-170 | for a cursor right of the left edge and below the status bar, the write as written and the intended write give the same grid |
| Controller.StatusBarPaintsCorner | src/main.rs:165-171 | holding the left button at (10, 10), on the status bar, makes cell (0, 0) alive as written, while the intended write leaves the grid unchanged |
| Controller.Frame | src/main.rs:146-190 | after a frame the grid keeps its shape and the counter stays below SPEED; paused holds iff R was pressed or Space flipped it |
| Controller.NoInputIsTick | src/main.rs:183-190 | a frame with no input does only the tick |
| Controller.PausedIdle | src/main.rs:184 | any number of idle frames while paused leaves the whole state unchanged |
| Controller.RunningIdle | src/main.rs:184-190 | k idle frames while running advance the grid (count + k) / SPEED generations and leave the counter at (count + k) mod SPEED |
| Controller.CounterStep | src/main.rs:185-188 | one more frame wraps the counter to 0 exactly when it completes a block of SPEED frames |
| Controller.FramesKeepValid | src/main.rs:143-190 | whatever the sequence of inputs, the grid keeps its shape and the counter stays below SPEED |
| Controller.RandomizeFrame | src/main.rs:151-154 | pressing R alone installs the seed's random grid and pauses, without touching the counter |
| Controller.StepWhilePaused | src/main.rs:156-158 | N advances one generation even while paused, and the counter does not move |
| Controller.EraseWinsOverPaint | src/main.rs:165-181 | while paused, with both buttons held in one frame over the one cursor position both handlers read, the right button's erase runs last and the cell ends dead |
| Controller.ClearFrame | src/main.rs:160-162 | C with no button held ends the frame on the empty grid whatever else was pressed (a tick stepping it cannot bring cells back), and C does not touch the pause flag |
| Controller.RandomizeThenStep | src/main.rs:151-158 | keys act in the source's order: with R and N in one frame, the fresh random grid is stepped once and the session is paused |
| Controller.SpaceFrame | src/main.rs:147-149 | Space alone flips the pause flag before the same frame's tick, which runs under the new flag |
| Controller.PaintAfterKeys | src/main.rs:147-172 | the mouse is handled after all keys: in a frame that ends paused, the cell under a held left button is alive whatever C, N or R did |
| Controller.LonePaintDies | src/main.rs:165-190 | the tick comes after the mouse: a lone cell painted on an empty running grid in the frame whose count reaches SPEED is stepped at once and dies |

## Left out

- `display_console`, `draw`, `window_conf` and the status text (src/main.rs:90-134, 192-208) only produce output, so they are not modelled.
- The seed comes from the system clock (src/main.rs:23-27). Here it is the `seed` field of each frame's `Input`.
- Key and mouse polling, `get_fps` and the async frame loop are library calls. Each frame's events are an `Input` value, and a run is a sequence of them.
- Mouse positions are exact reals. The `f32` rounding of the pixel division is not modelled.
- Random.LcgNext: models release builds, where the `u64` product wraps. A debug build panics on overflow instead. That needs a seed above about 1.67 * 10^10 seconds, and `NoWrapAfterFirstStep` shows it can only happen on the first step.
- WIDTH and HEIGHT are fixed at the source's 50 and 25, not generic positive dimensions.
- Patterns.BlockIsStill and Patterns.BlinkerOscillates cover only shapes that keep one cell clear of every edge. The closed-form count behind them (`Rect`, `Hits`) uses plain intervals that do not wrap, so it does not describe a rectangle lying across an edge. A block or blinker touching an edge behaves the same on the torus; that case is simply not proved.
- Save/load and the other front ends of the repository are not part of this model.

## Findings

| source | as written | input that shows it | evidently intended | confidence | as-written member | corrected member |
|---|---|---|---|---|---|---|
| src/main.rs:168 | `((my - GRID_OFFSET_Y) / CELL_SIZE) as usize`. A cursor above the grid gives a negative row, and the saturating cast turns it into 0, so the guard `grid_y < HEIGHT` accepts it. The same happens at line 177, and for a negative column at lines 167 and 176. | left button held at pixel (10, 10), on the status bar: cell (0, 0) becomes alive | a click on the status bar writes no cell | medium, not executed | Mouse.CellUnderAsWritten, Mouse.StatusBarClickHitsCorner, Controller.StatusBarPaintsCorner | Mouse.CellUnder, Controller.PaintIntended |

The controller's `Paint`, used by `Frame`, follows the source as written. `Controller.PaintIntended` is the corrected write, and `Controller.PaintAgreesOnGrid` shows the two differ only for a cursor off the grid's top or left side.

=== FILE: controller.dfy ===
/** The frame loop of the windowed program: key presses and held mouse
    buttons edit the grid, and while unpaused the grid advances one
    generation every SPEED frames. Input polling becomes an `Input` value
    per frame; drawing is not modelled. */
module Controller {
  import opened Grids
  import opened Life
  import opened Random
  import opened Mouse
  import opened Patterns
  import opened Neighborhood

  /** Frames between two automatic generations. */
  const SPEED: nat := 6

  /** What one frame sees: which keys were pressed, which mouse buttons
      are held, the one cursor position both handlers read, and the seed the
      clock would give `randomize` if R was pressed. */
  datatype Input = Input(
    space: bool,
    randomize: bool,
    step: bool,
    clear: bool,
    leftHeld: bool,
    rightHeld: bool,
    cursor: (real, real),
    seed: u64)

  /** A frame with no key pressed and no button held. */
  const NoInput := Input(false, false, false, false, false, false, (0.0, 0.0), 0)

  /** The loop's state: the grid, the pause flag and the frame counter. */
  datatype Session = Session(grid: Grid, paused: bool, frameCount: nat) {
    /** The grid has its shape and the counter has not reached SPEED. */
    predicate Valid() {
      grid.Valid() && frameCount < SPEED
    }
  }

  /** The state before the first frame: an empty grid, paused, counter 0. */
  function Start(): (s: Session)
    ensures s.Valid() && s.paused && s.frameCount == 0
    ensures AllDead(s.grid)
  {
    Session(New(), true, 0)
  }

  /** `n` generations from `g`. */
  function Generations(g: Grid, n: nat): (r: Grid)
    requires g.Valid()
    ensures r.Valid()
  {
    if n == 0 then g else Step(Generations(g, n - 1))
  }

  /** The simulation update at the end of a frame. Paused, nothing moves.
      Unpaused, the counter goes up; when it reaches SPEED the grid advances
      one generation and the counter starts again from 0. */
  function Tick(s: Session): (r: Session)
    requires s.grid.Valid()
    ensures r.grid.Valid() && r.paused == s.paused
    ensures s.paused ==> r == s
    ensures !s.paused && s.frameCount < SPEED ==>
      && r.frameCount == (s.frameCount + 1) % SPEED
      && r.grid == Generations(s.grid, (s.frameCount + 1) / SPEED)
  {
    if s.paused then s
    else if s.frameCount + 1 >= SPEED then Session(Step(s.grid), false, 0)
    else s.(frameCount := s.frameCount + 1)
  }

  /** A held button writes the cell the handlers compute for the cursor,
      when that cell passes the bounds check. The conversion is the one the
      source runs, so a cursor over the status bar reaches row 0. */
  function Paint(g: Grid, cursor: Option<(real, real)>, v: bool): (r: Grid)
    requires g.Valid()
    ensures r.Valid()
    ensures forall j, i :: InBounds(i, j) ==>
      Alive(r, i, j) == if cursor.Some? && CellUnderAsWritten(cursor.value.0, cursor.value.1) == (i, j)
        then v else Alive(g, i, j)
  {
    match cursor
    case None => g
    case Some(p) =>
      var c := CellUnderAsWritten(p.0, p.1);
      SetCell(g, c.0, c.1, v)
  }

  /** The intended write: only a cursor over the grid itself edits a cell. */
  function PaintIntended(g: Grid, cursor: Option<(real, real)>, v: bool): (r: Grid)
    requires g.Valid()
    ensures r.Valid()
    ensures forall j, i :: InBounds(i, j) ==>
      Alive(r, i, j) == if cursor.Some? && CellUnder(cursor.value.0, cursor.value.1) == Some((i, j))
        then v else Alive(g, i, j)
  {
    match cursor
    case None => g
    case Some(p) =>
      match CellUnder(p.0, p.1)
      case None => g
      case Some(c) => SetCell(g, c.0, c.1, v)
  }

  /** Over the grid the two writes agree; they differ only for a cursor on
      the status bar or left of the grid. */
  lemma PaintAgreesOnGrid(g: Grid, mx: real, my: real, v: bool)
    requires g.Valid() && 0.0 <= mx && GRID_OFFSET_Y <= my
    ensures Paint(g, Some((mx, my)), v) == PaintIntended(g, Some((mx, my)), v)
  {
  }

  /** Holding the left button on the status bar, at (10, 10), makes the
      top-left cell alive, where the intended write leaves the grid alone. */
  lemma StatusBarPaintsCorner(g: Grid)
    requires g.Valid()
    ensures Alive(Paint(g, Some((10.0, 10.0)), true), 0, 0)
    ensures PaintIntended(g, Some((10.0, 10.0)), true) == g
  {
  }

  /** One pass of the loop, in the order the source handles its inputs:
      Space toggles the pause, R randomizes and pauses, N steps, C clears,
      the left button paints, the right button erases, then the tick. */
  function Frame(s: Session, input: Input): (r: Session)
    requires s.grid.Valid()
    ensures r.grid.Valid()
    ensures r.paused <==> input.randomize || (s.paused != input.space)
    ensures s.Valid() ==> r.Valid()
  {
    var paused := if input.space then !s.paused else s.paused;
    var g := if input.randomize then RandomGrid(input.seed) else s.grid;
    var paused := if input.randomize then true else paused;
    var g := if input.step then Step(g) else g;
    var g := if input.clear then Clear(g) else g;
    var g := Paint(g, if input.leftHeld then Some(input.cursor) else None, true);
    var g := Paint(g, if input.rightHeld then Some(input.cursor) else None, false);
    Tick(Session(g, paused, s.frameCount))
  }

  /** `k` frames in which nothing is pressed or held. */
  function Idle(s: Session, k: nat): (r: Session)
    requires s.grid.Valid()
    ensures r.grid.Valid()
  {
    if k == 0 then s else Frame(Idle(s, k - 1), NoInput)
  }

  /** A frame without input is just the tick. */
  lemma NoInputIsTick(s: Session)
    requires s.grid.Valid()
    ensures Frame(s, NoInput) == Tick(s)
  {
  }

  /** Left alone while paused, the session does not change at all. */
  lemma {:induction false} PausedIdle(s: Session, k: nat)
    requires s.grid.Valid() && s.paused
    ensures Idle(s, k) == s
  {
    if k > 0 {
      PausedIdle(s, k - 1);
    }
  }

  /** Left alone while running, `k` frames advance the grid one generation
      for every SPEED frames counted, and the counter keeps the remainder. */
  lemma {:induction false} RunningIdle(s: Session, k: nat)
    requires s.Valid() && !s.paused
    ensures !Idle(s, k).paused
    ensures Idle(s, k).frameCount == (s.frameCount + k) % SPEED
    ensures Idle(s, k).grid == Generations(s.grid, (s.frameCount + k) / SPEED)
  {
    if k > 0 {
      RunningIdle(s, k - 1);
      var p := Idle(s, k - 1);
      NoInputIsTick(p);
      CounterStep(s.frameCount + k - 1);
    }
  }

  /** One more frame on the running count `t`: the counter wraps to 0
      exactly when one more SPEED-block of frames has been completed. */
  lemma CounterStep(t: nat)
    ensures t % SPEED + 1 >= SPEED ==> (t + 1) / SPEED == t / SPEED + 1 && (t + 1) % SPEED == 0
    ensures t % SPEED + 1 < SPEED ==> (t + 1) / SPEED == t / SPEED && (t + 1) % SPEED == t % SPEED + 1
  {
    var q := t / SPEED;
    assert t == SPEED * q + t % SPEED;
    if t % SPEED + 1 >= SPEED {
      ModUnique(t + 1, SPEED, q + 1, 0);
    } else {
      ModUnique(t + 1, SPEED, q, t % SPEED + 1);
    }
  }

  /** Whatever the inputs, a valid session stays valid frame after frame. */
  lemma {:induction false} FramesKeepValid(s: Session, inputs: seq<Input>)
    requires s.Valid()
    ensures Run(s, inputs).Valid()
  {
    if |inputs| > 0 {
      FramesKeepValid(s, inputs[..|inputs| - 1]);
    }
  }

  /** The session after the frames `inputs`, in order. */
  function Run(s: Session, inputs: seq<Input>): (r: Session)
    requires s.grid.Valid()
    ensures r.grid.Valid()
  {
    if |inputs| == 0 then s else Frame(Run(s, inputs[..|inputs| - 1]), inputs[|inputs| - 1])
  }

  /** Pressing R alone replaces the grid with the seed's random grid and
      pauses; the paused tick then leaves the counter where it was. */
  lemma RandomizeFrame(s: Session, seed: u64)
    requires s.grid.Valid()
    ensures Frame(s, NoInput.(randomize := true, seed := seed))
      == Session(RandomGrid(seed), true, s.frameCount)
  {
  }

  /** N advances one generation even while paused, without touching the
      counter. */
  lemma StepWhilePaused(s: Session)
    requires s.grid.Valid() && s.paused
    ensures Frame(s, NoInput.(step := true)) == Session(Step(s.grid), true, s.frameCount)
  {
  }

  /** With both buttons held in one frame, the right button's erase comes
      last: the cell under the cursor ends the frame dead. */
  lemma EraseWinsOverPaint(s: Session, mx: real, my: real, x: nat, y: nat)
    requires s.grid.Valid() && s.paused
    requires CellUnderAsWritten(mx, my) == (x, y) && InBounds(x, y)
    ensures !Alive(Frame(s, NoInput.(leftHeld := true, rightHeld := true, cursor := (mx, my))).grid, x, y)
  {
  }

  /** C empties the grid, and the tick cannot bring anything back: with no
      button held, whatever else was pressed, the frame ends on the empty
      grid, and C itself leaves the pause flag alone. */
  lemma ClearFrame(s: Session, input: Input)
    requires s.grid.Valid() && input.clear && !input.leftHeld && !input.rightHeld
    ensures Frame(s, input).grid == New()
    ensures Frame(s, input).paused == Frame(s, input.(clear := false)).paused
  {
    EmptyStaysEmpty(New());
  }

  /** Keys take effect in the source's order: with R and N in one frame the
      new random grid is stepped, not the old one. */
  lemma RandomizeThenStep(s: Session, seed: u64)
    requires s.grid.Valid()
    ensures Frame(s, NoInput.(randomize := true, step := true, seed := seed))
      == Session(Step(RandomGrid(seed)), true, s.frameCount)
  {
  }

  /** Space is handled before the tick: pressed alone, it flips the pause
      flag and the same frame's tick already runs under the new flag. */
  lemma SpaceFrame(s: Session)
    requires s.grid.Valid()
    ensures Frame(s, NoInput.(space := true)) == Tick(s.(paused := !s.paused))
  {
  }

  /** The mouse is handled after every key: in a frame that ends paused,
      whatever C, N or R did, the cell under a held left button is alive. */
  lemma PaintAfterKeys(s: Session, input: Input, x: nat, y: nat)
    requires s.grid.Valid() && input.leftHeld && !input.rightHeld
    requires CellUnderAsWritten(input.cursor.0, input.cursor.1) == (x, y) && InBounds(x, y)
    requires input.randomize || s.paused != input.space
    ensures Alive(Frame(s, input).grid, x, y)
  {
  }

  /** The tick comes after the mouse: a cell painted onto an empty running
      grid in the frame that reaches SPEED is stepped at once, and dies alone. */
  lemma LonePaintDies(c: (real, real), x: nat, y: nat)
    requires CellUnderAsWritten(c.0, c.1) == (x, y) && InBounds(x, y)
    ensures !Alive(Frame(Session(New(), false, SPEED - 1), NoInput.(leftHeld := true, cursor := c)).grid, x, y)
  {
    NeighborsExcludeSelf(New(), x, y, true);
    assert Neighbors(New(), x, y) == 0;
    StepCell(SetCell(New(), x, y, true), x, y);
  }
}

=== FILE: count_neighbors.dfy ===
/** The loop of `count_neighbors` and the proof that the count it
    accumulates is the number of live cells around the given cell. */
module NeighborCount {
  import opened Grids
  import opened Neighborhood

  /** What the inner loop has added for row `dy` when it reaches `dx`
      (`dx = 2` once the row is done); the centre is skipped. */
  function RowSoFar(g: Grid, x: int, y: int, dx: int, dy: int): nat
    requires g.Valid() && InBounds(x, y)
    requires -1 <= dx <= 2 && -1 <= dy <= 1
  {
    (if dx > -1 then LiveAt(g, x, y, -1, dy) else 0)
    + (if dx > 0 && dy != 0 then LiveAt(g, x, y, 0, dy) else 0)
    + (if dx > 1 then LiveAt(g, x, y, 1, dy) else 0)
  }

  /** What the outer loop has counted in the rows above `dy`. */
  function RowsBefore(g: Grid, x: int, y: int, dy: int): nat
    requires g.Valid() && InBounds(x, y)
    requires -1 <= dy <= 2
  {
    (if dy > -1 then RowSoFar(g, x, y, 2, -1) else 0)
    + (if dy > 0 then RowSoFar(g, x, y, 2, 0) else 0)
    + (if dy > 1 then RowSoFar(g, x, y, 2, 1) else 0)
  }

  /** `count_neighbors`, with the two nested loops over `dy` and `dx` in
      `-1..=1` and the `continue` on the centre. */
  method CountNeighbors(g: Grid, x: int, y: int) returns (count: nat)
    requires g.Valid() && InBounds(x, y)
    ensures count == Neighbors(g, x, y)
    ensures count <= 8
  {
    count := 0;
    var dy := -1;
    while dy <= 1
      invariant -1 <= dy <= 2
      invariant count == RowsBefore(g, x, y, dy)
    {
      var dx := -1;
      while dx <= 1
        invariant -1 <= dx <= 2
        invariant count == RowsBefore(g, x, y, dy) + RowSoFar(g, x, y, dx, dy)
      {
        if dx == 0 && dy == 0 {
          dx := dx + 1;
          continue;
        }
        var nx := Wrap(x, dx, WIDTH);
        var ny := Wrap(y, dy, HEIGHT);
        if g.cells[ny][nx] {
          count := count + 1;
        }
        dx := dx + 1;
      }
      dy := dy + 1;
    }
  }
}

=== FILE: grids.dfy ===
/** The cell matrix of the Game of Life: a fixed HEIGHT x WIDTH boolean matrix
    stored row by row, so that cell (x, y) is `cells[y][x]`. */
module Grids {

  /** Number of columns. */
  const WIDTH: nat := 50
  /** Number of rows. */
  const HEIGHT: nat := 25

  datatype Grid = Grid(cells: seq<seq<bool>>) {

    /** The matrix has exactly HEIGHT rows of WIDTH cells each. */
    predicate Valid() {
      && |cells| == HEIGHT
      && forall y :: 0 <= y < HEIGHT ==> |cells[y]| == WIDTH
    }
  }

  /** (x, y) names a cell of the grid. */
  predicate InBounds(x: int, y: int) {
    0 <= x < WIDTH && 0 <= y < HEIGHT
  }

  /** The state of cell (x, y). */
  function Alive(g: Grid, x: int, y: int): bool
    requires g.Valid() && InBounds(x, y)
  {
    g.cells[y][x]
  }

  /** Every cell of the grid is dead. */
  predicate AllDead(g: Grid)
    requires g.Valid()
  {
    forall y, x :: 0 <= y < HEIGHT && 0 <= x < WIDTH ==> !Alive(g, x, y)
  }

  /** `Grid::new`: HEIGHT rows of WIDTH dead cells. */
  function New(): (g: Grid)
    ensures g.Valid()
    ensures AllDead(g)
  {
    Grid(seq(HEIGHT, _ => seq(WIDTH, _ => false)))
  }

  /** `Grid::clear`: every cell becomes dead; the shape is kept. */
  function Clear(g: Grid): (r: Grid)
    requires g.Valid()
    ensures r.Valid()
    ensures AllDead(r)
  {
    New()
  }

  /** Clearing is idempotent, and a cleared grid is the freshly built one. */
  lemma ClearIdempotent(g: Grid)
    requires g.Valid()
    ensures Clear(Clear(g)) == Clear(g)
    ensures Clear(g) == New()
  {
  }

  /** Two valid grids that agree on every cell are the same grid. */
  lemma SameCellsSameGrid(a: Grid, b: Grid)
    requires a.Valid() && b.Valid()
    requires forall y, x :: InBounds(x, y) ==> Alive(a, x, y) == Alive(b, x, y)
    ensures a == b
  {
    forall y | 0 <= y < HEIGHT
      ensures a.cells[y] == b.cells[y]
    {
      forall x | 0 <= x < WIDTH
        ensures a.cells[y][x] == b.cells[y][x]
      {
        assert Alive(a, x, y) == Alive(b, x, y);
      }
    }
  }

  /** The guarded single-cell write done by the mouse handlers: in bounds it
      writes exactly cell (x, y); out of bounds the grid is left alone. The
      coordinates are unsigned, as the `usize` values of the source are. */
  function SetCell(g: Grid, x: nat, y: nat, v: bool): (r: Grid)
    requires g.Valid()
    ensures r.Valid()
    ensures InBounds(x, y) ==> Alive(r, x, y) == v
    ensures forall j, i :: InBounds(i, j) && (i, j) != (x, y) ==> Alive(r, i, j) == Alive(g, i, j)
    ensures !InBounds(x, y) ==> r == g
  {
    if x < WIDTH && y < HEIGHT then
      Grid(g.cells[y := g.cells[y][x := v]])
    else
      g
  }

  /** Writing a value into a cell that already holds it changes nothing. */
  lemma SetCellSameValue(g: Grid, x: nat, y: nat)
    requires g.Valid() && InBounds(x, y)
    ensures SetCell(g, x, y, Alive(g, x, y)) == g
  {
    var r := SetCell(g, x, y, Alive(g, x, y));
    assert r.cells[y] == g.cells[y];
    assert r.cells == g.cells;
  }
}

=== FILE: life.dfy ===
/** One generation of Conway's Game of Life (rule B3/S23) on the torus. */
module Life {
  import opened Grids
  import opened Neighborhood
  import opened NeighborCount

  /** The match in `next_generation`: a live cell with 2 or 3 neighbors
      survives, a dead cell with exactly 3 is born, everything else is dead. */
  function Rule(alive: bool, neighbors: nat): (next: bool)
    ensures next <==> neighbors == 3 || (alive && neighbors == 2)
  {
    match (alive, neighbors)
    case (true, 2) => true
    case (true, 3) => true
    case (false, 3) => true
    case _ => false
  }

  /** The next generation: every cell is computed from the current grid
      only, never from a cell already updated. */
  function Step(g: Grid): (r: Grid)
    requires g.Valid()
    ensures r.Valid()
  {
    Grid(seq(HEIGHT, y requires 0 <= y < HEIGHT =>
      seq(WIDTH, x requires 0 <= x < WIDTH => Rule(g.cells[y][x], Neighbors(g, x, y)))))
  }

  /** B3/S23 cell by cell: in the next generation a cell is alive iff it has
      exactly 3 live neighbors now, or is alive now and has exactly 2. */
  lemma StepCell(g: Grid, x: int, y: int)
    requires g.Valid() && InBounds(x, y)
    ensures Alive(Step(g), x, y) <==> Neighbors(g, x, y) == 3 || (Alive(g, x, y) && Neighbors(g, x, y) == 2)
  {
  }

  /** `next_generation`: fills a fresh matrix row by row from the counts of
      the old one, then replaces the old matrix with it. */
  method NextGeneration(g: Grid) returns (r: Grid)
    requires g.Valid()
    ensures r.Valid()
    ensures r == Step(g)
  {
    var newCells := seq(HEIGHT, _ => seq(WIDTH, _ => false));
    var y := 0;
    while y < HEIGHT
      invariant 0 <= y <= HEIGHT
      invariant |newCells| == HEIGHT
      invariant forall j :: 0 <= j < HEIGHT ==> |newCells[j]| == WIDTH
      invariant forall j, i {:trigger newCells[j][i]} :: 0 <= j < y && 0 <= i < WIDTH ==>
        newCells[j][i] == Rule(g.cells[j][i], Neighbors(g, i, j))
    {
      var x := 0;
      while x < WIDTH
        invariant 0 <= x <= WIDTH
        invariant |newCells| == HEIGHT
        invariant forall j :: 0 <= j < HEIGHT ==> |newCells[j]| == WIDTH
        invariant forall j, i {:trigger newCells[j][i]} :: 0 <= j < y && 0 <= i < WIDTH ==>
          newCells[j][i] == Rule(g.cells[j][i], Neighbors(g, i, j))
        invariant forall i {:trigger newCells[y][i]} :: 0 <= i < x ==>
          newCells[y][i] == Rule(g.cells[y][i], Neighbors(g, i, y))
      {
        var neighbors := CountNeighbors(g, x, y);
        var alive := g.cells[y][x];
        newCells := newCells[y := newCells[y][x := Rule(alive, neighbors)]];
        x := x + 1;
      }
      y := y + 1;
    }
    r := Grid(newCells);
    assert forall j :: 0 <= j < HEIGHT ==> r.cells[j] == Step(g).cells[j];
  }
}

=== FILE: mouse.dfy ===
/** Cursor position to grid cell, as the two mouse handlers compute it:
    divide by the cell size, subtract the status-bar offset, and cast to
    `usize`. Positions are exact reals; `f32` rounding is not modelled. */
module Mouse {
  import opened Grids

  /** Pixel side of one cell. */
  const CELL_SIZE: real := 20.0
  /** Height of the status bar drawn above the grid. */
  const GRID_OFFSET_Y: real := 100.0

  /** Rust's `f as usize`: truncation toward zero, saturating at 0 for
      negative values. */
  function ToUsize(v: real): (n: nat)
    ensures v >= 0.0 ==> n as real <= v < n as real + 1.0
    ensures v < 1.0 ==> n == 0
  {
    if v < 0.0 then 0 else v.Floor
  }

  /** The conversion as the handlers write it. A cursor above the grid
      gives a negative row, which the cast turns into row 0. */
  function CellUnderAsWritten(mx: real, my: real): (c: (nat, nat))
    ensures my < GRID_OFFSET_Y + CELL_SIZE ==> c.1 == 0
    ensures mx < CELL_SIZE ==> c.0 == 0
  {
    (ToUsize(mx / CELL_SIZE), ToUsize((my - GRID_OFFSET_Y) / CELL_SIZE))
  }

  /** A click on the status bar, 10 pixels from the top-left corner of the
      window, lands on the grid's top-left cell. */
  lemma StatusBarClickHitsCorner()
    ensures 10.0 < GRID_OFFSET_Y
    ensures CellUnderAsWritten(10.0, 10.0) == (0, 0)
    ensures InBounds(CellUnderAsWritten(10.0, 10.0).0, CellUnderAsWritten(10.0, 10.0).1)
  {
  }

  datatype Option<T> = None | Some(value: T)

  /** The intended conversion: a cursor left of or above the grid hits
      no cell; otherwise the cell whose square contains the cursor. */
  function CellUnder(mx: real, my: real): (c: Option<(nat, nat)>)
    ensures c.Some? <==> 0.0 <= mx && GRID_OFFSET_Y <= my
    ensures c.Some? ==>
      && c.value.0 as real * CELL_SIZE <= mx < (c.value.0 as real + 1.0) * CELL_SIZE
      && GRID_OFFSET_Y + c.value.1 as real * CELL_SIZE <= my
      && my < GRID_OFFSET_Y + (c.value.1 as real + 1.0) * CELL_SIZE
  {
    if mx < 0.0 || my < GRID_OFFSET_Y then None
    else Some(CellUnderAsWritten(mx, my))
  }
}

=== FILE: neighborhood.dfy ===
/** Toroidal Moore neighborhood: `count_neighbors` and the wrap-around
    index arithmetic it relies on. */
module Neighborhood {
  import opened Grids

  /** Rust's `%` on signed integers truncates toward zero, so the remainder
      takes the sign of the dividend; Dafny's `%` is Euclidean. */
  function TruncRem(a: int, b: int): (r: int)
    requires b > 0
    ensures a >= 0 ==> 0 <= r < b && a == b * (a / b) + r
    ensures a < 0 ==> -b < r <= 0 && a == b * -((-a) / b) + r
  {
    if a >= 0 then a % b else -((-a) % b)
  }

  /** One coordinate of a neighbor: `(v as isize + d + n as isize) % n as isize`.
      Adding `n` before the remainder keeps the dividend non-negative, so
      the index lands in `[0, n)` even for `v = 0, d = -1`. */
  function Wrap(v: int, d: int, n: int): (r: nat)
    requires 0 <= v < n && -1 <= d <= 1
    ensures r < n
  {
    TruncRem(v + d + n, n)
  }

  /** The wrapped index is the residue of `v + d` modulo `n`: one step past
      either edge comes back in at the opposite edge. */
  lemma WrapIsResidue(v: int, d: int, n: int)
    requires 0 <= v < n && -1 <= d <= 1
    ensures Wrap(v, d, n) == if v + d < 0 then n - 1 else if v + d >= n then 0 else v + d
  {
    ModOfSmall(v + d + n, n);
  }

  /** For a dividend in `[0, 2n]` the remainder is at most two subtractions away. */
  lemma ModOfSmall(a: int, n: int)
    requires n > 0 && 0 <= a <= 2 * n
    ensures a % n == if a < n then a else if a < 2 * n then a - n else 0
  {
    if a < n {
      assert a == n * 0 + a;
    } else if a < 2 * n {
      assert a == n * 1 + (a - n);
    } else {
      assert a == n * 2 + 0;
    }
  }

  /** 1 when the neighbor of (x, y) at offset `(dx, dy)`, wrapped around
      both edges, is alive, and 0 otherwise. */
  function LiveAt(g: Grid, x: int, y: int, dx: int, dy: int): nat
    requires g.Valid() && InBounds(x, y)
    requires -1 <= dx <= 1 && -1 <= dy <= 1
  {
    if Alive(g, Wrap(x, dx, WIDTH), Wrap(y, dy, HEIGHT)) then 1 else 0
  }

  /** The number of live cells among the eight cells around (x, y) on the
      torus: the value `count_neighbors` is meant to return. */
  function Neighbors(g: Grid, x: int, y: int): (n: nat)
    requires g.Valid() && InBounds(x, y)
    ensures n <= 8
  {
    LiveAt(g, x, y, -1, -1) + LiveAt(g, x, y, 0, -1) + LiveAt(g, x, y, 1, -1)
    + LiveAt(g, x, y, -1, 0) + LiveAt(g, x, y, 1, 0)
    + LiveAt(g, x, y, -1, 1) + LiveAt(g, x, y, 0, 1) + LiveAt(g, x, y, 1, 1)
  }

  /** Stepping one cell away on a torus of size at least 2 never lands back
      on the starting index. */
  lemma WrapMoves(v: int, d: int, n: int)
    requires 2 <= n && 0 <= v < n && (d == -1 || d == 1)
    ensures Wrap(v, d, n) != v
  {
    WrapIsResidue(v, d, n);
  }

  /** The cell itself is never among its own neighbors: whatever is written
      into (x, y), the count around (x, y) does not change. */
  lemma NeighborsExcludeSelf(g: Grid, x: nat, y: nat, v: bool)
    requires g.Valid() && InBounds(x, y)
    ensures Neighbors(SetCell(g, x, y, v), x, y) == Neighbors(g, x, y)
  {
    WrapMoves(x, -1, WIDTH);
    WrapMoves(x, 1, WIDTH);
    WrapMoves(y, -1, HEIGHT);
    WrapMoves(y, 1, HEIGHT);
  }

  /** The grid has no edge: the top-left cell is the diagonal neighbor of
      the bottom-right one, the horizontal neighbor of the top-right one and
      the vertical neighbor of the bottom-left one. */
  lemma CornerWrapsAround(g: Grid)
    requires g.Valid()
    ensures LiveAt(g, WIDTH - 1, HEIGHT - 1, 1, 1) == if Alive(g, 0, 0) then 1 else 0
    ensures LiveAt(g, WIDTH - 1, 0, 1, 0) == if Alive(g, 0, 0) then 1 else 0
    ensures LiveAt(g, 0, HEIGHT - 1, 0, 1) == if Alive(g, 0, 0) then 1 else 0
  {
    WrapIsResidue(WIDTH - 1, 1, WIDTH);
    WrapIsResidue(HEIGHT - 1, 1, HEIGHT);
  }

  /** On a grid whose only live cell is the top-left corner, each of those
      three cells counts exactly one neighbor. */
  lemma LoneCornerCounted(g: Grid, x: int, y: int)
    requires g.Valid()
    requires forall j, i :: InBounds(i, j) ==> (Alive(g, i, j) <==> i == 0 && j == 0)
    requires (x, y) == (WIDTH - 1, HEIGHT - 1) || (x, y) == (WIDTH - 1, 0) || (x, y) == (0, HEIGHT - 1)
    ensures Neighbors(g, x, y) == 1
  {
    WrapIsResidue(x, -1, WIDTH);
    WrapIsResidue(x, 0, WIDTH);
    WrapIsResidue(x, 1, WIDTH);
    WrapIsResidue(y, -1, HEIGHT);
    WrapIsResidue(y, 0, HEIGHT);
    WrapIsResidue(y, 1, HEIGHT);
  }
}

=== FILE: patterns.dfy ===
/** Small patterns from the Game of Life folklore, used to pin the step
    rule down on concrete shapes: the 2x2 block is a still life and the
    3-cell blinker oscillates with period 2. */
module Patterns {
  import opened Grids
  import opened Neighborhood
  import opened Life

  /** The grid whose live cells are exactly the `w` x `h` rectangle with
      top-left corner (left, top). */
  function Rect(left: int, top: int, w: nat, h: nat): (g: Grid)
    ensures g.Valid()
    ensures forall y, x :: InBounds(x, y) ==>
      (Alive(g, x, y) <==> left <= x < left + w && top <= y < top + h)
  {
    Grid(seq(HEIGHT, y => seq(WIDTH, x => left <= x < left + w && top <= y < top + h)))
  }

  /** The rectangle keeps one cell clear of every edge, so no neighbor of
      any cell reaches it by wrapping around. */
  predicate Inset(left: int, top: int, w: nat, h: nat) {
    1 <= left && left + w <= WIDTH - 1 && 1 <= top && top + h <= HEIGHT - 1
  }

  /** 1 when v lies in [lo, lo + len), and 0 otherwise. */
  function In(v: int, lo: int, len: nat): nat {
    if lo <= v < lo + len then 1 else 0
  }

  /** How many of v-1, v, v+1 fall in [lo, lo + len). */
  function Hits(v: int, lo: int, len: nat): nat {
    In(v - 1, lo, len) + In(v, lo, len) + In(v + 1, lo, len)
  }

  /** Away from the edges a wrapped neighbor of a rectangle is live iff
      its column and its row both cross the rectangle. */
  lemma RectLiveAt(left: int, top: int, w: nat, h: nat, x: int, y: int, dx: int, dy: int)
    requires Inset(left, top, w, h) && InBounds(x, y)
    requires -1 <= dx <= 1 && -1 <= dy <= 1
    ensures LiveAt(Rect(left, top, w, h), x, y, dx, dy) == In(x + dx, left, w) * In(y + dy, top, h)
  {
    WrapIsResidue(x, dx, WIDTH);
    WrapIsResidue(y, dy, HEIGHT);
  }

  /** One row of the 3x3 window around (x, y): its live cells are the
      window's column hits, if that row crosses the rectangle. */
  lemma RectRow(left: int, top: int, w: nat, h: nat, x: int, y: int, dy: int)
    requires Inset(left, top, w, h) && InBounds(x, y) && -1 <= dy <= 1
    ensures var g := Rect(left, top, w, h);
      LiveAt(g, x, y, -1, dy) + LiveAt(g, x, y, 0, dy) + LiveAt(g, x, y, 1, dy)
        == Hits(x, left, w) * In(y + dy, top, h)
  {
    RectLiveAt(left, top, w, h, x, y, -1, dy);
    RectLiveAt(left, top, w, h, x, y, 0, dy);
    RectLiveAt(left, top, w, h, x, y, 1, dy);
    Distribute(In(y + dy, top, h), In(x - 1, left, w), In(x, left, w), In(x + 1, left, w));
  }

  /** Around any cell, the neighbors inside an inset rectangle are the
      3x3 window's hits by column times its hits by row, less the cell
      itself. */
  lemma RectNeighbors(left: int, top: int, w: nat, h: nat, x: int, y: int)
    requires Inset(left, top, w, h) && InBounds(x, y)
    ensures Neighbors(Rect(left, top, w, h), x, y)
      == Hits(x, left, w) * Hits(y, top, h) - In(x, left, w) * In(y, top, h)
  {
    RectWindow(left, top, w, h, x, y);
    Distribute(Hits(x, left, w), In(y - 1, top, h), In(y, top, h), In(y + 1, top, h));
  }

  /** The window around (x, y) row by row: each row contributes the column
      hits if it crosses the rectangle, and the centre is taken out. */
  lemma RectWindow(left: int, top: int, w: nat, h: nat, x: int, y: int)
    requires Inset(left, top, w, h) && InBounds(x, y)
    ensures Neighbors(Rect(left, top, w, h), x, y)
      == Hits(x, left, w) * In(y - 1, top, h) + Hits(x, left, w) * In(y, top, h)
       + Hits(x, left, w) * In(y + 1, top, h) - In(x, left, w) * In(y, top, h)
  {
    RectRow(left, top, w, h, x, y, -1);
    RectRow(left, top, w, h, x, y, 0);
    RectRow(left, top, w, h, x, y, 1);
    RectLiveAt(left, top, w, h, x, y, 0, 0);
    NeighborsByRows(Rect(left, top, w, h), x, y);
  }

  /** The neighbor count is the whole 3x3 window, row by row, less the
      centre cell. */
  lemma NeighborsByRows(g: Grid, x: int, y: int)
    requires g.Valid() && InBounds(x, y)
    ensures Neighbors(g, x, y)
      == (LiveAt(g, x, y, -1, -1) + LiveAt(g, x, y, 0, -1) + LiveAt(g, x, y, 1, -1))
       + (LiveAt(g, x, y, -1, 0) + LiveAt(g, x, y, 0, 0) + LiveAt(g, x, y, 1, 0))
       + (LiveAt(g, x, y, -1, 1) + LiveAt(g, x, y, 0, 1) + LiveAt(g, x, y, 1, 1))
       - LiveAt(g, x, y, 0, 0)
  {
  }

  /** Multiplication distributes over a sum of three. */
  lemma Distribute(k: int, a: int, b: int, c: int)
    ensures a * k + b * k + c * k == (a + b + c) * k
    ensures k * a + k * b + k * c == k * (a + b + c)
  {
  }

  /** B3/S23 applied to one cell of an inset rectangle, with the
      neighbor count in closed form. */
  lemma RectStepCell(left: int, top: int, w: nat, h: nat, x: int, y: int)
    requires Inset(left, top, w, h) && InBounds(x, y)
    ensures var n := Hits(x, left, w) * Hits(y, top, h) - In(x, left, w) * In(y, top, h);
      Alive(Step(Rect(left, top, w, h)), x, y) == Rule(In(x, left, w) == 1 && In(y, top, h) == 1, if n < 0 then 0 else n)
  {
    RectNeighbors(left, top, w, h, x, y);
    StepCell(Rect(left, top, w, h), x, y);
  }

  /** The column (or row) hits of a strip of width 1, 2 or 3, by position. */
  lemma HitsValue(v: int, lo: int, len: nat)
    requires 1 <= len <= 3
    ensures Hits(v, lo, len) == if v < lo - 1 || v > lo + len then 0
      else if v == lo - 1 || v == lo + len then 1
      else if len == 1 then 1 else if len == 2 then 2
      else if v == lo + 1 then 3 else 2
  {
  }

  /** The arithmetic of the block: the count is 3 exactly on the block's
      own cells, and elsewhere it is never 3. */
  lemma BlockRule(x: int, y: int, left: int, top: int)
    ensures var n := Hits(x, left, 2) * Hits(y, top, 2) - In(x, left, 2) * In(y, top, 2);
      Rule(In(x, left, 2) == 1 && In(y, top, 2) == 1, if n < 0 then 0 else n)
        == (In(x, left, 2) == 1 && In(y, top, 2) == 1)
  {
    HitsValue(x, left, 2);
    HitsValue(y, top, 2);
  }

  /** Under B3/S23 a cell of the block has 3 live neighbors and survives;
      every other cell has 0, 1, 2 or 4 and stays dead. */
  lemma BlockCell(left: int, top: int, x: int, y: int)
    requires Inset(left, top, 2, 2) && InBounds(x, y)
    ensures Alive(Step(Rect(left, top, 2, 2)), x, y) == Alive(Rect(left, top, 2, 2), x, y)
  {
    RectStepCell(left, top, 2, 2, x, y);
    BlockRule(x, y, left, top);
  }

  /** The 2x2 block is a still life. */
  lemma BlockIsStill(left: int, top: int)
    requires Inset(left, top, 2, 2)
    ensures Step(Rect(left, top, 2, 2)) == Rect(left, top, 2, 2)
  {
    forall y, x | InBounds(x, y)
      ensures Alive(Step(Rect(left, top, 2, 2)), x, y) == Alive(Rect(left, top, 2, 2), x, y)
    {
      BlockCell(left, top, x, y);
    }
    SameCellsSameGrid(Step(Rect(left, top, 2, 2)), Rect(left, top, 2, 2));
  }

  /** The arithmetic of the horizontal blinker: only the middle column of
      the 3x3 box around it is alive next. */
  lemma HorizontalRule(x: int, y: int, left: int, top: int)
    ensures var n := Hits(x, left, 3) * Hits(y, top, 1) - In(x, left, 3) * In(y, top, 1);
      Rule(In(x, left, 3) == 1 && In(y, top, 1) == 1, if n < 0 then 0 else n)
        == (In(x, left + 1, 1) == 1 && In(y, top - 1, 3) == 1)
  {
    HitsValue(x, left, 3);
    HitsValue(y, top, 1);
  }

  /** The arithmetic of the vertical blinker: only the middle row of the
      3x3 box around it is alive next. */
  lemma VerticalRule(x: int, y: int, left: int, top: int)
    ensures var n := Hits(x, left + 1, 1) * Hits(y, top - 1, 3) - In(x, left + 1, 1) * In(y, top - 1, 3);
      Rule(In(x, left + 1, 1) == 1 && In(y, top - 1, 3) == 1, if n < 0 then 0 else n)
        == (In(x, left, 3) == 1 && In(y, top, 1) == 1)
  {
    HitsValue(x, left + 1, 1);
    HitsValue(y, top - 1, 3);
  }

  /** Cell by cell, the horizontal blinker steps to the vertical one. */
  lemma HorizontalToVertical(left: int, top: int, x: int, y: int)
    requires Inset(left, top - 1, 3, 3) && InBounds(x, y)
    ensures Alive(Step(Rect(left, top, 3, 1)), x, y) == Alive(Rect(left + 1, top - 1, 1, 3), x, y)
  {
    RectStepCell(left, top, 3, 1, x, y);
    HorizontalRule(x, y, left, top);
  }

  /** Cell by cell, the vertical blinker steps back to the horizontal one. */
  lemma VerticalToHorizontal(left: int, top: int, x: int, y: int)
    requires Inset(left, top - 1, 3, 3) && InBounds(x, y)
    ensures Alive(Step(Rect(left + 1, top - 1, 1, 3)), x, y) == Alive(Rect(left, top, 3, 1), x, y)
  {
    RectStepCell(left + 1, top - 1, 1, 3, x, y);
    VerticalRule(x, y, left, top);
  }

  /** The blinker: a horizontal line of three becomes the vertical line of
      three through its middle cell, and back, so it has period 2. */
  lemma BlinkerOscillates(left: int, top: int)
    requires Inset(left, top - 1, 3, 3)
    ensures Step(Rect(left, top, 3, 1)) == Rect(left + 1, top - 1, 1, 3)
    ensures Step(Rect(left + 1, top - 1, 1, 3)) == Rect(left, top, 3, 1)
    ensures Step(Step(Rect(left, top, 3, 1))) == Rect(left, top, 3, 1)
  {
    forall y, x | InBounds(x, y)
      ensures Alive(Step(Rect(left, top, 3, 1)), x, y) == Alive(Rect(left + 1, top - 1, 1, 3), x, y)
    {
      HorizontalToVertical(left, top, x, y);
    }
    SameCellsSameGrid(Step(Rect(left, top, 3, 1)), Rect(left + 1, top - 1, 1, 3));
    forall y, x | InBounds(x, y)
      ensures Alive(Step(Rect(left + 1, top - 1, 1, 3)), x, y) == Alive(Rect(left, top, 3, 1), x, y)
    {
      VerticalToHorizontal(left, top, x, y);
    }
    SameCellsSameGrid(Step(Rect(left + 1, top - 1, 1, 3)), Rect(left, top, 3, 1));
  }

  /** The empty grid is a still life: with no live cell there are no
      births. */
  lemma EmptyStaysEmpty(g: Grid)
    requires g.Valid() && AllDead(g)
    ensures Step(g) == g
  {
    forall y, x | InBounds(x, y)
      ensures Alive(Step(g), x, y) == Alive(g, x, y)
    {
      StepCell(g, x, y);
      assert Neighbors(g, x, y) == 0;
    }
    SameCellsSameGrid(Step(g), g);
  }
}

=== FILE: random.dfy ===
/** `Grid::randomize`: a linear congruential generator seeded with the
    current time fills the grid with roughly 30% live cells. The seed is a
    parameter here; the clock is not modelled. */
module Random {
  import opened Grids

  /** 2^64: the range of Rust's `u64`. */
  const U64: nat := 0x1_0000_0000_0000_0000
  /** 2^31: one more than the mask `0x7fffffff`. */
  const P31: nat := 0x8000_0000
  /** The mask of the generator step: the low 31 bits. */
  const MASK: nat := 0x7fff_ffff
  /** The generator's multiplier. */
  const MULTIPLIER: nat := 1103515245
  /** The generator's increment. */
  const INCREMENT: nat := 12345

  /** Rust's `u64`: the naturals below 2^64. */
  type u64 = n: nat | n < U64

  /** 2 to the power k. */
  function Pow2(k: nat): (p: nat)
    ensures p >= 1
  {
    if k == 0 then 1 else 2 * Pow2(k - 1)
  }

  /** Bitwise AND of two naturals, one binary digit at a time. */
  function BitAnd(a: nat, b: nat): (r: nat)
    ensures r <= a && r <= b
  {
    if a == 0 || b == 0 then 0
    else 2 * BitAnd(a / 2, b / 2) + (if a % 2 == 1 && b % 2 == 1 then 1 else 0)
  }

  /** Halving and taking the low bit commute with reducing modulo 2m. */
  lemma HalveMod(v: nat, m: nat)
    requires m > 0
    ensures 2 * ((v / 2) % m) + v % 2 == v % (2 * m)
  {
    var q := (v / 2) / m;
    var r := (v / 2) % m;
    assert v / 2 == m * q + r;
    assert v == 2 * (v / 2) + v % 2;
    assert v == (2 * m) * q + (2 * r + v % 2) by {
      assert 2 * (m * q) == (2 * m) * q;
    }
    ModUnique(v, 2 * m, q, 2 * r + v % 2);
  }

  /** A quotient-remainder decomposition with the remainder in range is the
      one Euclidean division gives. */
  lemma ModUnique(v: nat, d: nat, q: nat, r: nat)
    requires d > 0 && r < d && v == d * q + r
    ensures v % d == r
  {
    var q0 := v / d;
    var r0 := v % d;
    assert v == d * q0 + r0;
    if q0 > q {
      MulDistance(d, q0, q);
      assert false;
    } else if q0 < q {
      MulDistance(d, q, q0);
      assert false;
    }
  }

  /** Distinct multiples of `d` are at least `d` apart. */
  lemma MulDistance(d: nat, a: nat, b: nat)
    requires a > b
    ensures d * a >= d * b + d
  {
    var k := a - b - 1;
    assert d * a == d * b + d + d * k;
  }

  /** Masking with `2^k - 1` keeps the low `k` bits: it is reduction modulo `2^k`. */
  lemma {:induction false} AndLowMask(v: nat, k: nat)
    ensures BitAnd(v, Pow2(k) - 1) == v % Pow2(k)
  {
    if k == 0 {
    } else if v == 0 {
    } else {
      var m := Pow2(k) - 1;
      assert m % 2 == 1 && m / 2 == Pow2(k - 1) - 1;
      AndLowMask(v / 2, k - 1);
      HalveMod(v, Pow2(k - 1));
    }
  }

  /** `0x7fffffff` is 2^31 - 1, the mask of the low 31 bits. */
  lemma MaskIsLowBits()
    ensures MASK == Pow2(31) - 1 && P31 == Pow2(31)
  {
    assert Pow2(8) == 256;
    assert Pow2(16) == 2 * 2 * 2 * 2 * 2 * 2 * 2 * 2 * Pow2(8);
    assert Pow2(24) == 2 * 2 * 2 * 2 * 2 * 2 * 2 * 2 * Pow2(16);
  }

  /** One step `rng = (rng * 1103515245 + 12345) & 0x7fffffff` with the
      multiplication and the addition wrapping at 2^64, as release builds do.
      Because 2^31 divides 2^64 the wrap never shows: the result is the
      unwrapped value modulo 2^31. */
  function LcgNext(s: u64): (r: u64)
    ensures r < P31
    ensures r == (s * MULTIPLIER + INCREMENT) % P31
  {
    var wrapped := ((s * MULTIPLIER) % U64 + INCREMENT) % U64;
    MaskIsLowBits();
    AndLowMask(wrapped, 31);
    WrapThenLow(s * MULTIPLIER, INCREMENT);
    BitAnd(wrapped, MASK)
  }

  /** Reducing modulo 2^64 before reducing modulo 2^31 changes nothing. */
  lemma WrapThenLow(a: nat, c: nat)
    ensures ((a % U64 + c) % U64) % P31 == (a + c) % P31
  {
    var t := a % U64 + c;
    assert U64 == P31 * 0x2_0000_0000;
    assert a == U64 * (a / U64) + a % U64;
    assert t == U64 * (t / U64) + t % U64;
    ModMultiple(t % U64, t / U64);
    ModMultiple(a % U64 + c, a / U64);
  }

  /** Adding a multiple of 2^64 does not change a residue modulo 2^31. */
  lemma ModMultiple(b: nat, q: nat)
    ensures (U64 * q + b) % P31 == b % P31
  {
    assert U64 * q == P31 * (0x2_0000_0000 * q);
  }

  /** Once the state is below 2^31, the next product and sum stay below
      2^64: from the second step on the 64-bit arithmetic never wraps. */
  lemma NoWrapAfterFirstStep(s: u64)
    requires s < P31
    ensures s * MULTIPLIER + INCREMENT < U64
  {
  }

  /** The generator state after `k` steps from `seed`. */
  function LcgState(seed: u64, k: nat): (s: u64)
    ensures k >= 1 ==> s < P31
  {
    if k == 0 then seed else LcgNext(LcgState(seed, k - 1))
  }

  /** The row-major position of cell (x, y) among the cells `randomize` visits. */
  function Visit(x: nat, y: nat): nat {
    y * WIDTH + x
  }

  /** Cell (x, y) is filled from the generator state drawn for it, the
      (y * WIDTH + x + 1)-th: alive with probability about 30%. */
  predicate Drawn(seed: u64, x: nat, y: nat) {
    LcgState(seed, Visit(x, y) + 1) % 100 < 30
  }

  /** The grid `randomize` leaves behind for a given seed. */
  function RandomGrid(seed: u64): (g: Grid)
    ensures g.Valid()
    ensures forall y, x :: InBounds(x, y) ==> (Alive(g, x, y) <==> Drawn(seed, x, y))
  {
    Grid(seq(HEIGHT, y requires 0 <= y => seq(WIDTH, x requires 0 <= x => Drawn(seed, x, y))))
  }

  /** `Grid::randomize` with the seed passed in: every cell of the grid is
      overwritten in row-major order, each from a fresh generator state, so
      the result depends on the seed alone and not on the grid it replaces. */
  method Randomize(g: Grid, seed: u64) returns (r: Grid)
    requires g.Valid()
    ensures r.Valid()
    ensures forall y, x :: InBounds(x, y) ==> (Alive(r, x, y) <==> Drawn(seed, x, y))
    ensures r == RandomGrid(seed)
  {
    var cells := g.cells;
    var rng := seed;
    var y := 0;
    while y < HEIGHT
      invariant 0 <= y <= HEIGHT
      invariant |cells| == HEIGHT
      invariant forall j :: 0 <= j < HEIGHT ==> |cells[j]| == WIDTH
      invariant rng == LcgState(seed, Visit(0, y))
      invariant forall j, i {:trigger cells[j][i]} :: 0 <= j < y && 0 <= i < WIDTH ==>
        cells[j][i] == Drawn(seed, i, j)
    {
      var row;
      row, rng := FillRow(cells[y], seed, y, rng);
      cells := cells[y := row];
      y := y + 1;
    }
    r := Grid(cells);
    assert forall j :: 0 <= j < HEIGHT ==> r.cells[j] == RandomGrid(seed).cells[j];
  }

  /** The inner loop of `randomize`: row `y` is overwritten left to right,
      drawing one generator state per cell. */
  method FillRow(row: seq<bool>, seed: u64, y: nat, rng0: u64) returns (r: seq<bool>, rng: u64)
    requires |row| == WIDTH && rng0 == LcgState(seed, Visit(0, y))
    ensures |r| == WIDTH
    ensures forall i :: 0 <= i < WIDTH ==> r[i] == Drawn(seed, i, y)
    ensures rng == LcgState(seed, Visit(0, y + 1))
  {
    r := row;
    rng := rng0;
    var x := 0;
    while x < WIDTH
      invariant 0 <= x <= WIDTH
      invariant |r| == WIDTH
      invariant rng == LcgState(seed, Visit(x, y))
      invariant forall i :: 0 <= i < x ==> r[i] == Drawn(seed, i, y)
    {
      rng := LcgNext(rng);
      assert rng == LcgState(seed, Visit(x, y) + 1);
      r := r[x := rng % 100 < 30];
      x := x + 1;
    }
    assert Visit(WIDTH, y) == Visit(0, y + 1);
  }
}
